=== FILE: README.md ===
# Heynote buffer synchronisation, modelled in Dafny

This project models the buffer core of Heynote's Electron main process
(`electron/main/buffer.js`). A *buffer* is a named text file. The app mirrors it
between the editor window and disk. A directory watcher reports external edits
back to the window and suppresses the echo of the app's own saves. A *registry*
maps buffer names to buffers and is rebuilt from the configuration.

The model has three parts:

- **Path construction** (`paths.dfy`, module `Paths`). It covers home-directory
  expansion, the `buffer-<name>.txt` / `buffer-dev-<name>.txt` naming scheme, and
  the choice between the configured directory and the default one. Symlink
  resolution then falls back to the unresolved path on `ENOENT`.
- **One buffer** (`buffers.dfy`, module `Buffers`). This is an immutable `Buffer`
  value with its watcher state and last-saved content, plus the pure decision a
  watch event leads to. The file system is the map in `filestore.dfy`
  (module `FileStore`).
- **The registry** (`registry.dfy`, module `Registry`). An `App` value holds:
  - the name-to-buffer map;
  - the file store;
  - the log of `buffer-content:change` notifications;
  - the `contentSaved` and quit flags;
  - `leaked`, the buffers that were dropped from the map while their watcher was
    still open.

  A watcher is *leaked* when its Buffer object is unreachable but `fs.watch`
  keeps running. "No leak" is stated as `leaked` staying unchanged.

Watchers are counted: `openWatchers` is the number of `fs.watch` handles a buffer
has opened and not closed. The source's `watcher` field is non-null exactly when
the count is positive. So "at most one active watcher" is a real invariant
(`WellFormed`, `Valid`), not a consequence of the types.

`platform.dfy` collects the outside inputs as parameters of `Env`:
- `os.homedir()`, where the empty string means no home directory;
- `isDev`;
- `app.getPath("userData")`;
- the `settings.bufferPath` configuration value;
- `fs.realpathSync`, as an oracle returning a path or an error code;
- the initial-content constants and the erase flag.

The outcome of a write is also a parameter: `fault`, where `None` means the
system calls succeed.

## Model

| member | source | states |
|---|---|---|
| Paths.Untildify | electron/main/buffer.js:12-17 | With no home directory, or without a leading `~` followed by end, `/` or `\`, the path is unchanged (so `~user/x` and `a/~` stay as they are). Otherwise the result starts with the home directory and continues with exactly the text after the `~`. |
| Paths.UntildifyIdempotent | electron/main/buffer.js:12-17 | Expanding twice gives the same result as expanding once, provided the home directory does not itself start with an expandable `~`. |
| Paths.ExpandTemplate | electron/main/buffer.js:15 | The contract states only that a replacement string with no `$` comes through unchanged. The expansion of `$$`, `$&`, `` $` `` and `$'` is defined by the body and is pinned down by the concrete counterexample `Paths.UntildifyAsWrittenCollapsesDollar`. |
| Paths.UntildifyAsWritten | electron/main/buffer.js:15 | The source's `replace` call as written. It agrees with the literal expansion whenever the home directory contains no `$`, and it leaves non-matching paths unchanged. On a match, whatever the home directory, the result ends with exactly the text after the `~`. |
| Paths.UntildifyAsWrittenCollapsesDollar | electron/main/buffer.js:15 | With home `/$$`, `~/n` becomes `/$/n` as written, not `/$$/n`: a `$` is lost. |
| Paths.BasenameOfJoin | electron/main/buffer.js:20 | The basename of `join(dir, file)` is `file`, for any `file` without a separator. |
| Paths.ParseFileNameOfFileName | electron/main/buffer.js:20 | Reading the buffer name back from its file name gives the name that built it. |
| Paths.FileNameOfParseFileName | electron/main/buffer.js:20 | Any file name the scheme accepts is the file name of the name read from it. |
| Paths.FileNameInjective | electron/main/buffer.js:20 | In one environment, two buffer names never share a file name. |
| Paths.ConstructBufferFilePath | electron/main/buffer.js:19-21 | The path ends with `buffer-dev-<suffix>.txt` when `isDev` holds and with `buffer-<suffix>.txt` otherwise. It starts with the expanded directory. |
| Paths.BufferFileBasename | electron/main/buffer.js:19-21 | For a name without `/`, the basename of the unresolved buffer path is the buffer's file name, and that file name reads back to the buffer name. After a symlink is resolved, the basename can differ. |
| Registry.FallbackBufferFiltersOnFileName | electron/main/buffer.js:28-37 | When the buffer file does not exist yet (`ENOENT`, so no symlink is resolved), the loaded buffer accepts a watch event exactly when the event names the buffer's file name. |
| Paths.GetBufferFilePath | electron/main/buffer.js:23-38 | The result is an error exactly when symlink resolution fails with a code other than `ENOENT`, and that error is the resolver's. A successful resolution is returned as is. `ENOENT` returns the unresolved path. |
| Paths.ConfiguredDirectoryOverridesDefault | electron/main/buffer.js:24-27 | With a non-empty configured directory, the default directory has no influence on the path. |
| Paths.EmptyConfigurationUsesDefault | electron/main/buffer.js:24-36 | With an empty configured directory and a missing file, the path is the buffer file inside the user-data directory. |
| FileStore.Read | electron/main/buffer.js:52 | A read yields the content exactly for a regular file, `undefined` exactly for an absent path, and `EISDIR` for a directory. |
| FileStore.Write | electron/main/buffer.js:59-62 | An atomic write either leaves the target holding exactly the new content with every other path untouched, or fails. |
| Buffers.Exists | electron/main/buffer.js:66-68 | `exists()` holds exactly when reading the path yields content. Otherwise the path is absent or a directory. |
| Buffers.SetupWatcher | electron/main/buffer.js:70-95 | A watcher is attached if and only if none is active and the file exists. An active watcher or a missing file leaves the buffer unchanged. At most one watcher is kept. Nothing but the watcher changes. |
| Buffers.SetupWatcherIdempotent | electron/main/buffer.js:70-71 | Calling `setupWatcher` again (constructor, then every `load`) changes nothing. |
| Buffers.NewBuffer | electron/main/buffer.js:42-49 | A new buffer has no saved content, at most one watcher, and a watcher exactly when its file already exists. |
| Buffers.Load | electron/main/buffer.js:51-55 | Load succeeds exactly when the read does, and returns the buffer's name with the read content. Only on success is the watcher armed. A failed read leaves the buffer untouched. |
| Buffers.Save | electron/main/buffer.js:57-64 | `lastSaved` becomes the content whether or not the write succeeds. The save succeeds exactly when the atomic write does. Afterwards the file holds the content and every other path is unchanged. A failed save leaves the disk unchanged and raises the write's own error. |
| Buffers.Close | electron/main/buffer.js:97-102 | Closing leaves no active watcher, changes nothing but the watcher, and is a no-op on a closed buffer. |
| Buffers.CloseIdempotent | electron/main/buffer.js:97-102 | Closing twice is the same as closing once. |
| Buffers.OnWatchEvent | electron/main/buffer.js:79-92 | The callback notifies if and only if: the buffer is watched; the event names the buffer's file; the re-read succeeds; and the read content differs from `lastSaved` under JavaScript `!==`. It suppresses the event exactly when the file holds the last saved text. It ignores the event exactly when unwatched or the event is for another file. |
| Buffers.EventTypeIrrelevant | electron/main/buffer.js:79-82 | The event type plays no part in the decision. |
| Buffers.DeletionIsReported | electron/main/buffer.js:86-91 | If the file is gone, a watched buffer reports `onChange(undefined)`. |
| Buffers.SaveEchoSuppressed | electron/main/buffer.js:57-91 | The event caused by the buffer's own successful save never notifies. |
| Buffers.ExternalChangeAfterSaveNotified | electron/main/buffer.js:79-91 | After a save, an external rewrite with different content notifies with the new content. This holds for each event that names the file; a rewrite that raises two events notifies twice. |
| Buffers.FailedSaveReportsOldContent | electron/main/buffer.js:57-63 | After a failed save, `lastSaved` holds the unsaved text, with no rollback. The next event reports the unchanged disk content as an external change. |
| Buffers.ClosedBufferIgnoresEvents | electron/main/buffer.js:97-102 | A closed buffer ignores every event. |
| Buffers.SaveThenLoad | electron/main/buffer.js:51-64 | A successful save followed by a load gives back the saved content. |
| Registry.Install | electron/main/buffer.js:129 | Storing a buffer under a name replaces that entry. The displaced buffer joins `leaked` if and only if its watcher is still open. `Valid` is kept. |
| Registry.LoadBuffer | electron/main/buffer.js:108-117 | `loadBuffer` fails exactly when path resolution fails, with the same error. Otherwise it returns a buffer named after the suffix, at the resolved path, with no saved content, watched exactly when the file exists. |
| Registry.CloseAll | electron/main/buffer.js:120-126 | Every entry is kept. Each buffer with at most one watcher ends with none, and nothing but its watcher changes. |
| Registry.LoadBuffers | electron/main/buffer.js:119-133 | Every old entry is closed first and none is removed. Names no longer configured stay, closed. After success, every configured name holds the buffer `loadBuffer` gives. An error names the first configured entry whose resolution failed. Every earlier name holds the buffer `loadBuffer` gives, and every old entry not among those earlier names is closed. No name after the failing one is added. The leaked list only grows. With distinct names and a valid start, nothing leaks and the registry stays valid. |
| Registry.DuplicateConfigurationLeaks | electron/main/buffer.js:127-130 | If a configured name appears twice and its file exists, the second pass of the loop body (`Registry.LoadStep`, the step `LoadBuffers` runs) drops the still-watched first buffer, and its watcher leaks. |
| Registry.LoadBufferIfExists | electron/main/buffer.js:135-143 | An unregistered name raises. When the file exists and the development erase flag is off, the buffer is loaded and its watcher armed. Otherwise the placeholder for the environment is answered and the state is left exactly as it was, so the disk is not read. |
| Registry.LoadBufferIfExistsShows | electron/main/buffer.js:135-143 | For a registered name the answer succeeds in this model (see `FileStore.Read` under Left out). Its content is what a read of the file gives when the file exists and the erase flag is off, and the development or production placeholder otherwise. |
| Registry.CloseEntry | electron/main/buffer.js:194-197 | Only the named entry changes, and it is closed. |
| Registry.ReplaceEntry | electron/main/buffer.js:194-198 | Close-before-replace: from a valid state, replacing an entry leaks nothing and keeps the state valid. |
| Registry.Announce | electron/main/buffer.js:200-202 | For a registered name, exactly one notification is appended, with the content `loadBufferIfExists` answers. |
| Registry.MultibufferNew | electron/main/buffer.js:193-203 | `multibuffer:new` succeeds exactly when the path resolves. From a valid state it leaks no watcher and keeps the registry valid. |
| Registry.MultibufferNewFrame | electron/main/buffer.js:193-203 | Files and flags are unchanged. Other names keep their buffers, and on success exactly the new name is added. |
| Registry.MultibufferNewNotifies | electron/main/buffer.js:193-203 | On success, the new name holds a fresh buffer at the resolved path, watched exactly when the file exists. Exactly one notification with the shown content is appended. |
| Registry.MultibufferNewFailure | electron/main/buffer.js:193-198 | If resolution fails, the old buffer stays, closed, and nothing is pushed or leaked. |
| Registry.RegisterTwiceKeepsOneWatcher | electron/main/buffer.js:193-198 | Registering the same name twice leaks nothing and leaves one buffer with at most one watcher, active exactly when the file exists. |
| Registry.SaveBuffer | electron/main/buffer.js:149-155 | An unregistered name raises and changes nothing. Otherwise the buffer records the content and the save succeeds exactly when the write does. On success the file holds the content and every other path is unchanged. On failure the write's own error is raised. |
| Registry.SaveAndQuit | electron/main/buffer.js:157-162 | `contentSaved` is set and quitting is requested if and only if the save succeeded. Apart from those two flags, the state and the reply are exactly those of `buffer-content:save`: on success only the target file changes, otherwise no file does. The log and the leaked list are unchanged, and a valid state stays valid. |
| Registry.HandleWatchEvent | electron/main/buffer.js:79-92 | A notification tagged with the buffer's name is appended exactly when the buffer's callback decides to notify. Nothing else changes. |
| Registry.SaveThenLoadBufferIfExists | electron/main/buffer.js:135-155 | Outside the development erase mode, saving through the handler and then loading gives back the saved content. |
| Registry.SaveNotEchoed | electron/main/buffer.js:57-91 | The app's own successful save produces no notification. |
| Registry.ExternalRewriteNotifiedOnce | electron/main/buffer.js:79-91 | After a save, one event naming the file after an external rewrite with different content appends exactly one notification, with the new content. Each further such event appends another. |
| Registry.LoadAll | electron/main/buffer.js:189-191 | `buffer-content:all` loads every registered buffer, arming the watcher of each buffer whose file exists. It replies with each name's content exactly when every read succeeds; otherwise it returns the error of a failed read. |

## Left out

- `buffer-content:selectLocation` (`dialog`, the message box) is user-interface
  code and is not modelled.
- Electron IPC registration, `win.webContents.send` and `app.quit` are not
  modelled as such. A notification is an entry appended to `App.log`; the
  window-may-be-absent case (`win?.`) is not distinguished. Quitting is the
  `quitRequested` flag.
- Real `fs.watch` semantics are replaced by explicit event inputs
  `(eventType, filename)` fed to `OnWatchEvent`. Events are delivered only to
  registered buffers; the events a leaked watcher would still receive are not
  modelled.
- Buffers.SetupWatcher: attaching a watcher cannot fail in the model. In the
  program, `fs.watch` can throw synchronously, for example `ENOSPC` at the
  inotify watch limit or `EACCES` on the directory. The throw leaves the
  constructor, so `loadBuffer` throws. `loadBuffers` then stops part-way, and
  `multibuffer:new` rejects after it has closed the old buffer. A `load()` call
  rejects after a successful read. None of these outcomes is modelled.
- The watched directory (`dirname`) is not modelled. `Join` and `Basename` are a
  plain `/`-separator model of Node's `path.join` and `path.basename`: no `..`,
  repeated-separator or trailing-separator normalisation, and no Windows `\`
  separator.
- `fs-jetpack` internals are not modelled: the temp-file-and-rename steps, file
  mode `600`, creation of missing parent directories, and UTF-8 decoding. A
  read or write is one atomic step on the `Store` map, and the outcome of a write
  is the `fault` parameter. Content is a sequence of Unicode scalar values, while
  a JavaScript string is a sequence of UTF-16 code units. Text holding a lone
  surrogate does not survive the UTF-8 write and read. For such text the program
  does not have the round trip of `Buffers.SaveThenLoad`, and its save echo can
  differ from `lastSaved`, so `Buffers.SaveEchoSuppressed` fails too.
- FileStore.Read: only a directory makes a read fail (`EISDIR`). A regular file
  always reads back, whereas `jetpack.read` rejects with every error except
  `ENOENT`, such as `EACCES` or `EIO`. So three promises hold only in the model:
  - `Buffers.Load`: its only error is `EISDIR`.
  - `Registry.LoadBufferIfExistsShows`: the answer always succeeds.
  - `Registry.LoadAll`: the kept error agrees with the first one in time.
- `realpathSync` is the oracle `Env.realpath`. It is not tied to the file store.
- Async interleavings are not modelled: the race between `save` and a
  watcher-triggered re-read, and the concurrent loads of `Promise.all`. Each
  handler is one atomic step.
- Registry.LoadAll: the reply is a map from name to content, not the array of
  `[name, content]` pairs in object-key order that the handler returns. When
  several reads fail, the model keeps one of their errors; `Promise.all` rejects
  with whichever fails first in time. In the model every read error is `EISDIR`,
  so the two coincide; in the program they need not (see `FileStore.Read`).
- The registry is a map, so the insertion order of the JavaScript object is not
  kept. The JavaScript object also inherits from `Object.prototype`, and the map
  does not model that. For a name such as `constructor` or `toString` on an empty
  registry, `bufferName in buffers` holds. The following `close()` call then
  throws a `TypeError`, so `multibuffer:new` rejects before it replaces anything.
  `Registry.MultibufferNew` instead registers the buffer and notifies. Assigning
  under `__proto__` creates no own key in JavaScript, but it does in the map.
- Paths.ConstructBufferFilePath: the path is built on the literal expansion
  `Untildify`, not on the `$`-expanding `replace` call the source makes. The
  two agree whenever the home directory contains no `$`
  (`Paths.UntildifyAsWritten`). For a home directory containing `$$`, `$&`,
  `` $` `` or `$'`, the program's path differs, and so do the paths reached
  through `UnresolvedPath`, `GetBufferFilePath`, `LoadBuffer`, `LoadBuffers` and
  `MultibufferNew` (see Findings).
- `CONFIG`, `os.homedir`, `isDev` and the initial-content module are parameters
  (`Env`, and the `names` argument of `LoadBuffers`). `os.homedir()` throwing is
  not modelled.

## Findings

| source | as written | input that shows it | evidently intended | confidence | as-written member | corrected member |
|---|---|---|---|---|---|---|
| electron/main/buffer.js:15 | The home directory is passed to `String.prototype.replace` as a replacement *string*, so the GetSubstitution step of ECMA-262 expands `$$`, `$&`, `` $` `` and `$'` inside it. | home directory `/$$`, path `~/n`: the result is `/$/n` | insert the home directory literally, giving `/$$/n` (for example by passing `() => homeDirectory`) | medium; not executed | Paths.UntildifyAsWritten (counterexample: Paths.UntildifyAsWrittenCollapsesDollar) | Paths.Untildify (used by Paths.ConstructBufferFilePath; Paths.UntildifyIdempotent; agreement without `$` in Paths.UntildifyAsWritten) |

=== FILE: buffers.dfy ===
/** One file-backed buffer: loading, saving, the lazily attached directory
    watcher, and the decision a watch event leads to.

    The watcher is counted: `openWatchers` is the number of `fs.watch`
    handles this buffer has opened and not yet closed. The source's
    `watcher` field is non-null exactly when the count is positive. */
module Buffers {
  import opened Wrappers
  import opened FileStore
  import Paths

  datatype Buffer = Buffer(
    name: string,
    filePath: string,
    openWatchers: nat,
    /** `_lastSavedContent`; `None` is `null`. */
    lastSaved: Option<string>)
  {
    predicate Watched() {
      openWatchers > 0
    }

    /** At most one active watcher. */
    predicate WellFormed() {
      openWatchers <= 1
    }
  }

  /** `exists()`: the buffer's path names a regular file, which is exactly
      when reading it yields content. */
  function Exists(b: Buffer, fs: Store): (r: bool)
    ensures r <==> Read(fs, b.filePath).Ok? && Read(fs, b.filePath).value.Some?
    ensures !r ==> Read(fs, b.filePath) == Ok(None) || Read(fs, b.filePath) == Err(Eisdir)
  {
    IsFile(fs, b.filePath)
  }

  /** Attaches a watcher only when none is active and the file exists. */
  function SetupWatcher(b: Buffer, fs: Store): (r: Buffer)
    ensures r.Watched() <==> b.Watched() || IsFile(fs, b.filePath)
    ensures b.Watched() || !IsFile(fs, b.filePath) ==> r == b
    ensures b.WellFormed() ==> r.WellFormed()
    ensures r.(openWatchers := b.openWatchers) == b
  {
    if !b.Watched() && Exists(b, fs) then
      b.(openWatchers := b.openWatchers + 1)
    else b
  }

  /** Repeated calls (from the constructor, then from every `load`) never
      open a second watcher. */
  lemma SetupWatcherIdempotent(b: Buffer, fs: Store)
    ensures SetupWatcher(SetupWatcher(b, fs), fs) == SetupWatcher(b, fs)
  {
  }

  /** The constructor: no saved content yet, and a watcher exactly when
      the file is already there. */
  function NewBuffer(name: string, filePath: string, fs: Store): (r: Buffer)
    ensures r.name == name && r.filePath == filePath && r.lastSaved == None
    ensures r.WellFormed()
    ensures r.Watched() <==> IsFile(fs, filePath)
  {
    SetupWatcher(Buffer(name, filePath, 0, None), fs)
  }

  /** The `[name, content]` pair `load` returns; `None` is `undefined`. */
  datatype Loaded = Loaded(name: string, content: Option<string>)

  datatype LoadOutcome = LoadOutcome(buffer: Buffer, result: Result<Loaded, string>)

  /** Reads the file and then arms the watcher; a failed read raises before
      the watcher is touched. */
  function Load(b: Buffer, fs: Store): (r: LoadOutcome)
    ensures r.result.Ok? <==> Read(fs, b.filePath).Ok?
    ensures r.result.Ok? ==> r.result.value == Loaded(b.name, Read(fs, b.filePath).value)
    ensures r.result.Ok? ==> r.buffer == SetupWatcher(b, fs)
    ensures r.result.Err? ==> r.buffer == b && r.result.error == Eisdir
    ensures IsFile(fs, b.filePath) ==>
              r.result == Ok(Loaded(b.name, Some(fs[b.filePath].content))) && r.buffer.Watched()
  {
    match Read(fs, b.filePath)
    case Err(e) => LoadOutcome(b, Err(e))
    case Ok(content) => LoadOutcome(SetupWatcher(b, fs), Ok(Loaded(b.name, content)))
  }

  datatype SaveOutcome = SaveOutcome(buffer: Buffer, files: Store, result: Result<(), string>)

  /** Records `content` as last saved BEFORE the atomic write; the record
      stays even when the write fails. */
  function Save(b: Buffer, fs: Store, content: string, fault: Option<string>): (r: SaveOutcome)
    ensures r.buffer == b.(lastSaved := Some(content))
    ensures r.result.Ok? <==> Write(fs, b.filePath, content, fault).Ok?
    ensures r.result.Ok? ==> Read(r.files, b.filePath) == Ok(Some(content))
    ensures r.result.Ok? ==> forall q :: q != b.filePath ==> (q in r.files <==> q in fs)
    ensures r.result.Ok? ==> r.files == fs[b.filePath := File(content)]
    ensures r.result.Err? ==> r.files == fs
    ensures r.result.Err? ==> r.result.error == Write(fs, b.filePath, content, fault).error
  {
    var recorded := b.(lastSaved := Some(content));
    match Write(fs, b.filePath, content, fault)
    case Ok(written) => SaveOutcome(recorded, written, Ok(()))
    case Err(e) => SaveOutcome(recorded, fs, Err(e))
  }

  /** Closes the watcher held in the field, if any. */
  function Close(b: Buffer): (r: Buffer)
    ensures b.WellFormed() ==> !r.Watched()
    ensures !b.Watched() ==> r == b
    ensures b.WellFormed() ==> r.WellFormed()
    ensures r.(openWatchers := b.openWatchers) == b
  {
    if b.Watched() then b.(openWatchers := b.openWatchers - 1) else b
  }

  lemma CloseIdempotent(b: Buffer)
    requires b.WellFormed()
    ensures Close(Close(b)) == Close(b)
  {
  }

  // ---------------------------------------------------------------------
  // Watch events
  // ---------------------------------------------------------------------

  /** A raw event of the directory watcher; `filename` may be null. */
  datatype WatchEvent = WatchEvent(eventType: string, filename: Option<string>)

  datatype EventOutcome =
    | Ignored                        // no watcher, or another file in the directory
    | Suppressed                     // the content is what this process last saved
    | Notify(content: Option<string>) // `onChange(content)`
    | ReadFailed(error: string)      // the re-read raised; nothing is reported

  /** JavaScript's `lastSaved !== content` between `null`-or-string and
      `undefined`-or-string: equal only for the same string. */
  predicate DiffersFromLastSaved(lastSaved: Option<string>, content: Option<string>) {
    !(lastSaved.Some? && content.Some? && lastSaved.value == content.value)
  }

  /** True iff the event names this buffer's own file. */
  predicate ConcernsBuffer(b: Buffer, ev: WatchEvent) {
    ev.filename == Some(Paths.Basename(b.filePath))
  }

  /** The watcher callback: ignore other files, re-read, and notify only
      when the content differs from what this process last saved. */
  function OnWatchEvent(b: Buffer, fs: Store, ev: WatchEvent): (r: EventOutcome)
    ensures r.Notify? <==>
              b.Watched() && ConcernsBuffer(b, ev) && Read(fs, b.filePath).Ok?
              && DiffersFromLastSaved(b.lastSaved, Read(fs, b.filePath).value)
    ensures r.Notify? ==> r.content == Read(fs, b.filePath).value
    ensures r.Suppressed? <==>
              b.Watched() && ConcernsBuffer(b, ev) && IsFile(fs, b.filePath)
              && b.lastSaved == Some(fs[b.filePath].content)
    ensures r.Ignored? <==> !b.Watched() || !ConcernsBuffer(b, ev)
  {
    if !b.Watched() || !ConcernsBuffer(b, ev) then Ignored
    else match Read(fs, b.filePath)
      case Err(e) => ReadFailed(e)
      case Ok(content) =>
        if DiffersFromLastSaved(b.lastSaved, content) then Notify(content) else Suppressed
  }

  /** The event type plays no part in the decision. */
  lemma EventTypeIrrelevant(b: Buffer, fs: Store, ev: WatchEvent, otherType: string)
    ensures OnWatchEvent(b, fs, ev.(eventType := otherType)) == OnWatchEvent(b, fs, ev)
  {
  }

  /** A file deleted under a watched buffer is always reported, as `undefined`. */
  lemma DeletionIsReported(b: Buffer, fs: Store, ev: WatchEvent)
    requires b.Watched() && ConcernsBuffer(b, ev)
    requires b.filePath !in fs
    ensures OnWatchEvent(b, fs, ev) == Notify(None)
  {
  }

  /** Echo suppression: the event caused by the buffer's own successful
      save is not reported. */
  lemma SaveEchoSuppressed(b: Buffer, fs: Store, content: string, ev: WatchEvent)
    requires Save(b, fs, content, None).result.Ok?
    ensures !OnWatchEvent(Save(b, fs, content, None).buffer, Save(b, fs, content, None).files, ev).Notify?
  {
    var out := Save(b, fs, content, None);
    assert IsFile(out.files, b.filePath);
  }

  /** After a save, an external rewrite with different content is reported
      once, with the new content. */
  lemma ExternalChangeAfterSaveNotified(b: Buffer, fs: Store, saved: string, external: string, ev: WatchEvent)
    requires b.Watched() && ConcernsBuffer(b, ev)
    requires external != saved
    ensures var out := Save(b, fs, saved, None);
            OnWatchEvent(out.buffer, out.files[b.filePath := File(external)], ev) == Notify(Some(external))
  {
  }

  /** The accepted risk window: when the write fails, the disk still holds
      the old content while the buffer already records the new one, so the
      next event reports the old content as an external change. */
  lemma FailedSaveReportsOldContent(b: Buffer, fs: Store, content: string, fault: string, ev: WatchEvent)
    requires b.Watched() && ConcernsBuffer(b, ev)
    requires IsFile(fs, b.filePath) && fs[b.filePath].content != content
    ensures var out := Save(b, fs, content, Some(fault));
            out.result.Err? && out.buffer.lastSaved == Some(content)
            && OnWatchEvent(out.buffer, out.files, ev) == Notify(Some(fs[b.filePath].content))
  {
  }

  /** A closed buffer reports nothing, whatever happens to its file. */
  lemma ClosedBufferIgnoresEvents(b: Buffer, fs: Store, ev: WatchEvent)
    requires b.WellFormed()
    ensures OnWatchEvent(Close(b), fs, ev) == Ignored
  {
  }

  /** Round trip: a successful save followed by a load gives back the saved text. */
  lemma SaveThenLoad(b: Buffer, fs: Store, content: string)
    requires Save(b, fs, content, None).result.Ok?
    ensures var out := Save(b, fs, content, None);
            Load(out.buffer, out.files).result == Ok(Loaded(b.name, Some(content)))
  {
  }
}

=== FILE: filestore.dfy ===
/** The filesystem as the buffer code sees it through `fs-jetpack`: a map
    from path to node. Reads and writes are atomic steps. */
module FileStore {
  import opened Wrappers

  datatype Node = File(content: string) | Directory

  type Store = map<string, Node>

  /** The error code of reading or replacing a directory as if it were a file. */
  const Eisdir: string := "EISDIR"

  /** `jetpack.exists(p) === "file"`: a regular file, not a directory, not absent. */
  predicate IsFile(fs: Store, p: string) {
    p in fs && fs[p].File?
  }

  /** `jetpack.read(p, 'utf8')`: the content of a file, `undefined` (`None`)
      for an absent path, and an error for a directory. */
  function Read(fs: Store, p: string): (r: Result<Option<string>, string>)
    ensures r.Ok? && r.value.Some? <==> IsFile(fs, p)
    ensures IsFile(fs, p) ==> r.value.value == fs[p].content
    ensures r == Ok(None) <==> p !in fs
    ensures r.Err? ==> r.error == Eisdir
  {
    if p !in fs then Ok(None)
    else match fs[p]
      case File(c) => Ok(Some(c))
      case Directory => Err(Eisdir)
  }

  /** The atomic `jetpack.write`: the target ends up holding exactly
      `content`, or, when the write fails, nothing changes. `fault` is the
      outcome of the underlying system calls (`None` when they succeed). */
  function Write(fs: Store, p: string, content: string, fault: Option<string>): (r: Result<Store, string>)
    ensures r.Ok? <==> fault.None? && !(p in fs && fs[p].Directory?)
    ensures r.Ok? ==> Read(r.value, p) == Ok(Some(content))
    ensures r.Ok? ==> forall q :: q != p ==> (q in r.value <==> q in fs)
    ensures r.Ok? ==> forall q :: q != p && q in fs ==> r.value[q] == fs[q]
    ensures fault.Some? ==> r == Err(fault.value)
  {
    if fault.Some? then Err(fault.value)
    else if p in fs && fs[p].Directory? then Err(Eisdir)
    else Ok(fs[p := File(content)])
  }
}

=== FILE: paths.dfy ===
/** Where a buffer's file lives: home-directory expansion, the buffer
    file-name scheme, and the choice between the configured directory and
    the platform default, followed by symlink resolution.

    Paths are POSIX-style strings. `Join` and `Basename` are a plain
    separator model of Node's `path.join` and `path.basename` (no `..`
    or repeated-separator normalisation). */
module Paths {
  import opened Wrappers
  import opened Platform

  predicate EndsWith(s: string, t: string) {
    |t| <= |s| && s[|s| - |t|..] == t
  }

  predicate StartsWith(s: string, t: string) {
    |t| <= |s| && s[..|t|] == t
  }

  // ---------------------------------------------------------------------
  // Home-directory expansion
  // ---------------------------------------------------------------------

  /** True iff the pattern `^~(?=$|\/|\\)` matches `p`: a leading `~`
      followed by end-of-string, `/` or `\`. */
  predicate HasTildePrefix(p: string) {
    |p| >= 1 && p[0] == '~' && (|p| == 1 || p[1] == '/' || p[1] == '\\')
  }

  /** Replaces the matched leading `~` by the home directory, taken
      literally. An empty home directory (JavaScript-falsy) leaves the path
      alone. */
  function Untildify(p: string, home: string): (r: string)
    ensures home == "" ==> r == p
    ensures !HasTildePrefix(p) ==> r == p
    ensures home != "" && HasTildePrefix(p) ==>
              StartsWith(r, home) && r[|home|..] == p[1..]
  {
    if home != "" && HasTildePrefix(p) then home + p[1..] else p
  }

  /** Expansion is stable: a second pass changes nothing, as long as the
      home directory does not itself start with an expandable `~`. */
  lemma UntildifyIdempotent(p: string, home: string)
    requires !HasTildePrefix(home)
    ensures Untildify(Untildify(p, home), home) == Untildify(p, home)
  {
    var r := Untildify(p, home);
    if home != "" && HasTildePrefix(p) {
      assert r[..|home|] == home;
      assert r[0] == home[0];
      if |home| >= 2 {
        assert r[1] == home[1];
      }
      assert !HasTildePrefix(r);
    }
  }

  /** The expansion String.prototype.replace applies to a replacement
      STRING (the GetSubstitution abstract operation of ECMA-262), for a
      pattern without capture groups: `$$` gives `$`, `$&` the matched
      text, `` $` `` the text before the match, `$'` the text after it;
      every other `$` stays literal. */
  function ExpandTemplate(t: string, matched: string, before: string, after: string): (r: string)
    ensures '$' !in t ==> r == t
    decreases |t|
  {
    if |t| == 0 then ""
    else if t[0] == '$' && |t| >= 2 && t[1] == '$' then
      "$" + ExpandTemplate(t[2..], matched, before, after)
    else if t[0] == '$' && |t| >= 2 && t[1] == '&' then
      matched + ExpandTemplate(t[2..], matched, before, after)
    else if t[0] == '$' && |t| >= 2 && t[1] == '`' then
      before + ExpandTemplate(t[2..], matched, before, after)
    else if t[0] == '$' && |t| >= 2 && t[1] == '\'' then
      after + ExpandTemplate(t[2..], matched, before, after)
    else
      [t[0]] + ExpandTemplate(t[1..], matched, before, after)
  }

  /** `untildify` exactly as the source writes it: the home directory is
      handed to `String.prototype.replace` as a replacement string, so its
      `$` sequences are expanded rather than copied. */
  function UntildifyAsWritten(p: string, home: string): (r: string)
    ensures '$' !in home ==> r == Untildify(p, home)
    ensures !HasTildePrefix(p) || home == "" ==> r == p
    ensures home != "" && HasTildePrefix(p) ==> EndsWith(r, p[1..])
  {
    if home != "" && HasTildePrefix(p) then
      ExpandTemplate(home, "~", "", p[1..]) + p[1..]
    else p
  }

  /** A home directory containing `$$` loses a `$` in the as-written
      expansion, while the literal replacement keeps it. */
  lemma UntildifyAsWrittenCollapsesDollar()
    ensures UntildifyAsWritten("~/n", "/$$") == "/$/n"
    ensures Untildify("~/n", "/$$") == "/$$/n"
    ensures UntildifyAsWritten("~/n", "/$$") != Untildify("~/n", "/$$")
  {
    var home := "/$$";
    assert home[1..] == "$$";
    assert home[1..][2..] == "";
    assert ExpandTemplate("", "~", "", "/n") == "";
    assert ExpandTemplate(home[1..], "~", "", "/n") == "$";
    assert ExpandTemplate(home, "~", "", "/n") == "/$";
    assert "~/n"[1..] == "/n";
  }

  // ---------------------------------------------------------------------
  // Separator model of `path.join` / `path.basename`
  // ---------------------------------------------------------------------

  function Join(dir: string, file: string): (r: string)
    ensures EndsWith(r, file)
    ensures dir != "" ==> StartsWith(r, dir)
  {
    if dir == "" then file
    else if dir[|dir| - 1] == '/' then dir + file
    else dir + "/" + file
  }

  /** The text after the last `/`. */
  function Basename(p: string): (r: string)
    ensures '/' !in r
    ensures EndsWith(p, r)
    decreases |p|
  {
    if |p| == 0 || p[|p| - 1] == '/' then ""
    else Basename(p[..|p| - 1]) + [p[|p| - 1]]
  }

  lemma {:induction false} BasenameAfterSeparator(pre: string, f: string)
    requires '/' !in f
    requires pre == "" || pre[|pre| - 1] == '/'
    ensures Basename(pre + f) == f
    decreases |f|
  {
    if |f| == 0 {
      assert pre + f == pre;
    } else {
      var last := f[|f| - 1];
      assert (pre + f)[..|pre + f| - 1] == pre + f[..|f| - 1];
      assert (pre + f)[|pre + f| - 1] == last;
      BasenameAfterSeparator(pre, f[..|f| - 1]);
      assert f[..|f| - 1] + [last] == f;
    }
  }

  /** The basename of a joined path is the file that was joined. */
  lemma BasenameOfJoin(dir: string, file: string)
    requires '/' !in file
    ensures Basename(Join(dir, file)) == file
  {
    if dir == "" {
      BasenameAfterSeparator("", file);
      assert "" + file == file;
    } else if dir[|dir| - 1] == '/' {
      BasenameAfterSeparator(dir, file);
    } else {
      BasenameAfterSeparator(dir + "/", file);
    }
  }

  // ---------------------------------------------------------------------
  // Buffer file names
  // ---------------------------------------------------------------------

  function FilePrefix(isDev: bool): string {
    if isDev then "buffer-dev-" else "buffer-"
  }

  const FileExtension: string := ".txt"

  /** `buffer-dev-<suffix>.txt` in development, `buffer-<suffix>.txt` otherwise. */
  function FileName(suffix: string, isDev: bool): (r: string)
    ensures StartsWith(r, FilePrefix(isDev)) && EndsWith(r, FileExtension)
    ensures '/' !in suffix ==> '/' !in r
  {
    FilePrefix(isDev) + suffix + FileExtension
  }

  /** Recovers the buffer name from a file name of the scheme, if it is one. */
  function ParseFileName(f: string, isDev: bool): (r: Option<string>)
    ensures r.Some? ==> |r.value| + |FilePrefix(isDev)| + |FileExtension| == |f|
  {
    var pre := FilePrefix(isDev);
    if |f| >= |pre| + |FileExtension| && StartsWith(f, pre) && EndsWith(f, FileExtension) then
      Some(f[|pre|..|f| - |FileExtension|])
    else None
  }

  lemma ParseFileNameOfFileName(suffix: string, isDev: bool)
    ensures ParseFileName(FileName(suffix, isDev), isDev) == Some(suffix)
  {
    var pre := FilePrefix(isDev);
    var f := FileName(suffix, isDev);
    assert f[|pre|..|f| - |FileExtension|] == suffix;
  }

  lemma FileNameOfParseFileName(f: string, isDev: bool)
    requires ParseFileName(f, isDev).Some?
    ensures FileName(ParseFileName(f, isDev).value, isDev) == f
  {
    var pre := FilePrefix(isDev);
    var s := ParseFileName(f, isDev).value;
    assert f == f[..|pre|] + f[|pre|..|f| - |FileExtension|] + f[|f| - |FileExtension|..];
  }

  /** Distinct buffer names never share a file within one environment. */
  lemma FileNameInjective(s1: string, s2: string, isDev: bool)
    requires FileName(s1, isDev) == FileName(s2, isDev)
    ensures s1 == s2
  {
    ParseFileNameOfFileName(s1, isDev);
    ParseFileNameOfFileName(s2, isDev);
  }

  // ---------------------------------------------------------------------
  // Buffer file paths
  // ---------------------------------------------------------------------

  /** The buffer file inside `dir`, after home-directory expansion. */
  function ConstructBufferFilePath(dir: string, suffix: string, isDev: bool, home: string): (r: string)
    ensures EndsWith(r, FileName(suffix, isDev))
    ensures isDev ==> EndsWith(r, "buffer-dev-" + suffix + ".txt")
    ensures !isDev ==> EndsWith(r, "buffer-" + suffix + ".txt")
    ensures Untildify(dir, home) != "" ==> StartsWith(r, Untildify(dir, home))
  {
    Join(Untildify(dir, home), FileName(suffix, isDev))
  }

  /** The basename of the unresolved buffer path is exactly the buffer's
      file name, and it names the buffer back. (After symlink resolution
      the path, and so the name a watch event must carry, may differ.) */
  lemma BufferFileBasename(dir: string, suffix: string, isDev: bool, home: string)
    requires '/' !in suffix
    ensures Basename(ConstructBufferFilePath(dir, suffix, isDev, home)) == FileName(suffix, isDev)
    ensures ParseFileName(Basename(ConstructBufferFilePath(dir, suffix, isDev, home)), isDev) == Some(suffix)
  {
    BasenameOfJoin(Untildify(dir, home), FileName(suffix, isDev));
    ParseFileNameOfFileName(suffix, isDev);
  }

  /** The configured directory when it is non-empty, else the default one. */
  function BufferDirectory(env: Env): (r: string)
    ensures |env.configPath| > 0 ==> r == env.configPath
    ensures |env.configPath| == 0 ==> r == env.userData
  {
    if |env.configPath| > 0 then env.configPath else env.userData
  }

  /** The path before symlink resolution. */
  function UnresolvedPath(env: Env, suffix: string): (r: string)
    ensures EndsWith(r, FileName(suffix, env.isDev))
  {
    ConstructBufferFilePath(BufferDirectory(env), suffix, env.isDev, env.home)
  }

  /** Resolves symlinks; a missing file (`ENOENT`) falls back to the
      unresolved path, every other resolution error is raised. */
  function GetBufferFilePath(env: Env, suffix: string): (r: Result<string, string>)
    ensures r.Err? <==> env.realpath(UnresolvedPath(env, suffix)).Err?
                        && env.realpath(UnresolvedPath(env, suffix)).error != Enoent
    ensures r.Err? ==> r == env.realpath(UnresolvedPath(env, suffix))
    ensures env.realpath(UnresolvedPath(env, suffix)).Ok? ==> r == env.realpath(UnresolvedPath(env, suffix))
    ensures env.realpath(UnresolvedPath(env, suffix)) == Err(Enoent) ==> r == Ok(UnresolvedPath(env, suffix))
  {
    var unresolved := UnresolvedPath(env, suffix);
    match env.realpath(unresolved)
    case Ok(resolved) => Ok(resolved)
    case Err(code) => if code == Enoent then Ok(unresolved) else Err(code)
  }

  /** A non-empty configured directory makes the default directory irrelevant. */
  lemma ConfiguredDirectoryOverridesDefault(env: Env, suffix: string, otherDefault: string)
    requires |env.configPath| > 0
    ensures GetBufferFilePath(env.(userData := otherDefault), suffix) == GetBufferFilePath(env, suffix)
  {
  }

  /** With no configured directory, the buffer file sits in the default one. */
  lemma EmptyConfigurationUsesDefault(env: Env, suffix: string)
    requires env.configPath == ""
    requires env.realpath(UnresolvedPath(env, suffix)) == Err(Enoent)
    ensures GetBufferFilePath(env, suffix)
            == Ok(ConstructBufferFilePath(env.userData, suffix, env.isDev, env.home))
  {
  }
}

=== FILE: platform.dfy ===
/** The collaborators the buffer code consults but does not own, as plain
    parameters: the home directory, the development flag, the platform's
    per-application data directory, the configured buffer directory, the
    symlink resolver and the initial-content provider. */
module Platform {
  import opened Wrappers

  /** The error code the symlink resolver reports for a missing path. */
  const Enoent: string := "ENOENT"

  datatype Env = Env(
    /** `os.homedir()`; the empty string stands for "no home directory". */
    home: string,
    /** `isDev`: selects the development file-name scheme and initial content. */
    isDev: bool,
    /** `app.getPath("userData")`, the default buffer directory. */
    userData: string,
    /** The `settings.bufferPath` configuration value. */
    configPath: string,
    /** `fs.realpathSync` as an oracle: the resolved path, or an error code. */
    realpath: string -> Result<string, string>,
    /** The development "erase initial content" flag. */
    eraseInitialContent: bool,
    /** Placeholder content for a buffer that was never saved. */
    initialContent: string,
    /** Placeholder content in development mode. */
    initialDevContent: string)
}

=== FILE: registry.dfy ===
/** The registry of buffers keyed by name and the handlers that change it.

    `App` is the whole state one handler sees: the registry, the file
    store, the log of change notifications sent to the window, the buffers
    that were dropped from the registry while their watcher was still open
    (`leaked`: the object is gone but `fs.watch` keeps running), the
    `contentSaved` flag and whether quitting was requested. */
module Registry {
  import opened Wrappers
  import opened Platform
  import opened FileStore
  import opened Buffers
  import Paths

  /** One `buffer-content:change` message: buffer name and content. */
  datatype Notification = Notification(name: string, content: Option<string>)

  datatype App = App(
    buffers: map<string, Buffer>,
    files: Store,
    log: seq<Notification>,
    leaked: seq<Buffer>,
    contentSaved: bool,
    quitRequested: bool)

  /** What a handler leaves behind: the new state and its reply or error. */
  datatype Reply<T> = Reply(app: App, result: Result<T, string>)

  /** The error a handler raises when the named buffer is not registered
      (`buffers[name]` is `undefined`). */
  const NoSuchBuffer: string := "TypeError"

  /** Every buffer is stored under its own name and holds at most one watcher. */
  ghost predicate Valid(app: App) {
    && (forall n :: n in app.buffers ==> app.buffers[n].name == n && app.buffers[n].WellFormed())
    && (forall i :: 0 <= i < |app.leaked| ==> app.leaked[i].WellFormed())
  }

  predicate Distinct(names: seq<string>) {
    forall i, j :: 0 <= i < j < |names| ==> names[i] != names[j]
  }

  /** Stores `b` under `name`. The buffer it displaces is simply dropped, so
      if its watcher is still open it becomes a leaked watcher. */
  function Install(app: App, name: string, b: Buffer): (r: App)
    ensures r.buffers == app.buffers[name := b]
    ensures r.files == app.files && r.log == app.log
    ensures r.contentSaved == app.contentSaved && r.quitRequested == app.quitRequested
    ensures r.leaked == app.leaked <==> !(name in app.buffers && app.buffers[name].Watched())
    ensures r.leaked != app.leaked ==> r.leaked == app.leaked + [app.buffers[name]]
    ensures Valid(app) && b.name == name && b.WellFormed() ==> Valid(r)
  {
    var dropped := if name in app.buffers && app.buffers[name].Watched() then [app.buffers[name]] else [];
    app.(buffers := app.buffers[name := b], leaked := app.leaked + dropped)
  }

  /** `loadBuffer`: a fresh buffer for `suffix` at its resolved path. */
  function LoadBuffer(env: Env, fs: Store, suffix: string): (r: Result<Buffer, string>)
    ensures r.Ok? <==> Paths.GetBufferFilePath(env, suffix).Ok?
    ensures r.Err? ==> r.error == Paths.GetBufferFilePath(env, suffix).error
    ensures r.Ok? ==> r.value.name == suffix && r.value.lastSaved == None && r.value.WellFormed()
    ensures r.Ok? ==> r.value.filePath == Paths.GetBufferFilePath(env, suffix).value
    ensures r.Ok? ==> (r.value.Watched() <==> IsFile(fs, r.value.filePath))
  {
    match Paths.GetBufferFilePath(env, suffix)
    case Err(e) => Err(e)
    case Ok(path) => Ok(NewBuffer(suffix, path, fs))
  }

  /** `loadBuffer` for a fixed environment and file store. */
  function Loader(env: Env, fs: Store): string -> Result<Buffer, string> {
    suffix => LoadBuffer(env, fs, suffix)
  }

  /** One pass of the `loadBuffers` loop: `buffers[suffix] = loadBuffer(suffix)`,
      or the resolution error that stops the loop. */
  function LoadStep(env: Env, fs: Store, cur: App, suffix: string): (r: Result<App, string>)
    ensures r.Err? <==> LoadBuffer(env, fs, suffix).Err?
    ensures r.Err? ==> r.error == LoadBuffer(env, fs, suffix).error
    ensures r.Ok? ==> r.value == Install(cur, suffix, LoadBuffer(env, fs, suffix).value)
  {
    match LoadBuffer(env, fs, suffix)
    case Err(e) => Err(e)
    case Ok(b) => Ok(Install(cur, suffix, b))
  }

  /** Closes every registered buffer, keeping every entry. */
  function CloseAll(buffers: map<string, Buffer>): (r: map<string, Buffer>)
    ensures r.Keys == buffers.Keys
    ensures forall n :: n in buffers ==> r[n] == Close(buffers[n])
    ensures forall n :: n in buffers && buffers[n].WellFormed() ==> !r[n].Watched()
    ensures forall n :: n in buffers ==> r[n].(openWatchers := buffers[n].openWatchers) == buffers[n]
  {
    map n | n in buffers :: Close(buffers[n])
  }

  // ---------------------------------------------------------------------
  // What holds after `loadBuffers` closed every buffer of `app` and
  // installed the first `i` configured names, giving `cur`
  // ---------------------------------------------------------------------

  /** Only the registry and the leaked list change, the latter by growing. */
  ghost predicate FrameKept(app: App, cur: App) {
    && cur.files == app.files && cur.log == app.log
    && cur.contentSaved == app.contentSaved && cur.quitRequested == app.quitRequested
    && app.buffers.Keys <= cur.buffers.Keys
    && |app.leaked| <= |cur.leaked| && cur.leaked[..|app.leaked|] == app.leaked
  }

  /** Old entries not yet reinserted are the closed old buffers; no other key appears. */
  ghost predicate OldEntriesClosed(app: App, names: seq<string>, i: nat, cur: App)
    requires i <= |names|
  {
    && (forall n :: n in cur.buffers ==> n in app.buffers || n in names[..i])
    && (forall n :: n in app.buffers && n !in names[..i] ==> n in cur.buffers && cur.buffers[n] == Close(app.buffers[n]))
  }

  /** Every name inserted so far holds the buffer `load` gives for it. */
  ghost predicate NamesInstalled(load: string -> Result<Buffer, string>, names: seq<string>, i: nat, cur: App)
    requires i <= |names|
  {
    forall j :: 0 <= j < i ==> names[j] in cur.buffers && load(names[j]) == Ok(cur.buffers[names[j]])
  }

  /** From a valid start the state stays valid, and when the configured
      names are distinct no watcher has leaked and every name still to come
      finds its entry (if any) closed. */
  ghost predicate NoLeakSoFar(app: App, names: seq<string>, i: nat, cur: App)
    requires i <= |names|
  {
    Valid(app) ==>
      && Valid(cur)
      && (Distinct(names) ==> cur.leaked == app.leaked)
      && (Distinct(names) ==>
            forall k :: i <= k < |names| && names[k] in cur.buffers ==> !cur.buffers[names[k]].Watched())
  }

  ghost predicate Progress(app: App, env: Env, names: seq<string>, i: nat, cur: App) {
    && i <= |names|
    && FrameKept(app, cur)
    && OldEntriesClosed(app, names, i, cur)
    && NamesInstalled(Loader(env, app.files), names, i, cur)
    && NoLeakSoFar(app, names, i, cur)
  }

  lemma ProgressStart(app: App, env: Env, names: seq<string>)
    ensures Progress(app, env, names, 0, app.(buffers := CloseAll(app.buffers)))
  {
    var cur := app.(buffers := CloseAll(app.buffers));
    assert names[..0] == [];
    assert cur.leaked[..|app.leaked|] == app.leaked;
  }

  lemma FrameStep(app: App, cur: App, name: string, b: Buffer)
    requires FrameKept(app, cur)
    ensures FrameKept(app, Install(cur, name, b))
  {
    var next := Install(cur, name, b);
    assert next.leaked[..|app.leaked|] == cur.leaked[..|app.leaked|];
  }

  lemma OldEntriesStep(app: App, names: seq<string>, i: nat, cur: App, b: Buffer)
    requires i < |names|
    requires OldEntriesClosed(app, names, i, cur)
    ensures OldEntriesClosed(app, names, i + 1, Install(cur, names[i], b))
  {
    assert names[..i + 1] == names[..i] + [names[i]];
  }

  lemma NamesStep(load: string -> Result<Buffer, string>, names: seq<string>, i: nat, cur: App, b: Buffer)
    requires i < |names| && load(names[i]) == Ok(b)
    requires NamesInstalled(load, names, i, cur)
    ensures NamesInstalled(load, names, i + 1, Install(cur, names[i], b))
  {
    var next := Install(cur, names[i], b);
    forall j | 0 <= j < i + 1
      ensures names[j] in next.buffers && load(names[j]) == Ok(next.buffers[names[j]])
    {
      if names[j] == names[i] {
        assert next.buffers[names[j]] == b;
      } else {
        assert next.buffers[names[j]] == cur.buffers[names[j]];
      }
    }
  }

  lemma NoLeakStep(app: App, names: seq<string>, i: nat, cur: App, b: Buffer)
    requires i < |names| && b.name == names[i] && b.WellFormed()
    requires NoLeakSoFar(app, names, i, cur)
    ensures NoLeakSoFar(app, names, i + 1, Install(cur, names[i], b))
  {
    var next := Install(cur, names[i], b);
    if Valid(app) && Distinct(names) {
      forall k | i + 1 <= k < |names| && names[k] in next.buffers
        ensures !next.buffers[names[k]].Watched()
      {
        assert names[k] != names[i];
      }
    }
  }

  lemma ProgressStep(app: App, env: Env, names: seq<string>, i: nat, cur: App, b: Buffer)
    requires Progress(app, env, names, i, cur)
    requires i < |names| && LoadBuffer(env, app.files, names[i]) == Ok(b)
    ensures Progress(app, env, names, i + 1, Install(cur, names[i], b))
  {
    FrameStep(app, cur, names[i], b);
    OldEntriesStep(app, names, i, cur, b);
    NamesStep(Loader(env, app.files), names, i, cur, b);
    NoLeakStep(app, names, i, cur, b);
  }

  /** When the buffer file does not exist yet (so no symlink is resolved),
      a watch event concerns the loaded buffer exactly when it names the
      buffer's file name. */
  lemma FallbackBufferFiltersOnFileName(env: Env, fs: Store, suffix: string, ev: WatchEvent)
    requires '/' !in suffix
    requires env.realpath(Paths.UnresolvedPath(env, suffix)) == Err(Enoent)
    ensures LoadBuffer(env, fs, suffix).Ok?
    ensures ConcernsBuffer(LoadBuffer(env, fs, suffix).value, ev)
            <==> ev.filename == Some(Paths.FileName(suffix, env.isDev))
  {
    Paths.BufferFileBasename(Paths.BufferDirectory(env), suffix, env.isDev, env.home);
  }

  /** What the loop invariant gives once the loop stops after `i` names. */
  lemma ProgressFinish(app: App, env: Env, names: seq<string>, i: nat, cur: App)
    requires Progress(app, env, names, i, cur)
    ensures cur.files == app.files && cur.log == app.log
    ensures cur.contentSaved == app.contentSaved && cur.quitRequested == app.quitRequested
    ensures app.buffers.Keys <= cur.buffers.Keys
    ensures forall n :: n in cur.buffers ==> n in app.buffers || n in names[..i]
    ensures forall n :: n in app.buffers && n !in names[..i] ==> cur.buffers[n] == Close(app.buffers[n])
    ensures forall j :: 0 <= j < i ==>
              names[j] in cur.buffers && LoadBuffer(env, app.files, names[j]) == Ok(cur.buffers[names[j]])
    ensures |app.leaked| <= |cur.leaked| && cur.leaked[..|app.leaked|] == app.leaked
    ensures Valid(app) && Distinct(names) ==> cur.leaked == app.leaked
    ensures Valid(app) ==> Valid(cur)
  {
    assert NamesInstalled(Loader(env, app.files), names, i, cur);
  }

  /** The contract of `LoadBuffers`, from the state its loop stops in. */
  lemma LoadBuffersOutcome(app: App, env: Env, names: seq<string>, i: nat, cur: App, err: Option<string>)
    requires Progress(app, env, names, i, cur)
    requires err.None? ==> i >= |names|
    requires err.Some? ==> i < |names| && LoadBuffer(env, app.files, names[i]) == Err(err.value)
    ensures cur.files == app.files && cur.log == app.log
    ensures cur.contentSaved == app.contentSaved && cur.quitRequested == app.quitRequested
    ensures app.buffers.Keys <= cur.buffers.Keys
    ensures forall n :: n in cur.buffers ==> n in app.buffers || n in names
    ensures forall n :: n in app.buffers && n !in names ==> cur.buffers[n] == Close(app.buffers[n])
    ensures err.None? ==>
              forall n :: n in names ==> n in cur.buffers && LoadBuffer(env, app.files, n) == Ok(cur.buffers[n])
    ensures err.Some? ==>
              exists k :: 0 <= k < |names| && LoadBuffer(env, app.files, names[k]) == Err(err.value)
                          && (forall j :: 0 <= j < k ==>
                                names[j] in cur.buffers && LoadBuffer(env, app.files, names[j]) == Ok(cur.buffers[names[j]]))
                          && (forall n :: n in app.buffers && n !in names[..k] ==> cur.buffers[n] == Close(app.buffers[n]))
                          && (forall n :: n in cur.buffers ==> n in app.buffers || n in names[..k])
    ensures |app.leaked| <= |cur.leaked| && cur.leaked[..|app.leaked|] == app.leaked
    ensures Valid(app) && Distinct(names) ==> cur.leaked == app.leaked
    ensures Valid(app) ==> Valid(cur)
  {
    ProgressFinish(app, env, names, i, cur);
    assert names[..i] <= names;
    if err.None? {
      assert names[..i] == names;
    } else {
      forall n | n in app.buffers && n !in names
        ensures cur.buffers[n] == Close(app.buffers[n])
      {
        assert n !in names[..i];
      }
    }
  }

  /** `loadBuffers`: close every registered buffer, then (re)insert each
      configured name in order. The map is never cleared, so names no
      longer configured stay, closed. A path-resolution error stops the
      loop, leaving the names before it inserted. */
  method LoadBuffers(app: App, env: Env, names: seq<string>) returns (app': App, err: Option<string>)
    ensures app'.files == app.files && app'.log == app.log
    ensures app'.contentSaved == app.contentSaved && app'.quitRequested == app.quitRequested
    ensures app.buffers.Keys <= app'.buffers.Keys
    ensures forall n :: n in app'.buffers ==> n in app.buffers || n in names
    ensures forall n :: n in app.buffers && n !in names ==> app'.buffers[n] == Close(app.buffers[n])
    ensures err.None? ==>
              forall n :: n in names ==> n in app'.buffers && LoadBuffer(env, app.files, n) == Ok(app'.buffers[n])
    ensures err.Some? ==>
              exists k :: 0 <= k < |names| && LoadBuffer(env, app.files, names[k]) == Err(err.value)
                          && (forall j :: 0 <= j < k ==>
                                names[j] in app'.buffers && LoadBuffer(env, app.files, names[j]) == Ok(app'.buffers[names[j]]))
                          && (forall n :: n in app.buffers && n !in names[..k] ==> app'.buffers[n] == Close(app.buffers[n]))
                          && (forall n :: n in app'.buffers ==> n in app.buffers || n in names[..k])
    ensures |app.leaked| <= |app'.leaked| && app'.leaked[..|app.leaked|] == app.leaked
    ensures Valid(app) && Distinct(names) ==> app'.leaked == app.leaked
    ensures Valid(app) ==> Valid(app')
  {
    app' := app.(buffers := CloseAll(app.buffers));
    err := None;
    var i := 0;
    ProgressStart(app, env, names);
    while i < |names| && err.None?
      invariant Progress(app, env, names, i, app')
      invariant err.Some? ==> i < |names| && LoadBuffer(env, app.files, names[i]) == Err(err.value)
      decreases |names| - i, if err.None? then 1 else 0
    {
      match LoadStep(env, app.files, app', names[i])
      case Err(e) =>
        err := Some(e);
      case Ok(next) =>
        ProgressStep(app, env, names, i, app', LoadBuffer(env, app.files, names[i]).value);
        app' := next;
        i := i + 1;
    }
    LoadBuffersOutcome(app, env, names, i, app', err);
  }

  /** `loadBufferIfExists`: read from disk only when the file exists and the
      development erase flag is not in force; otherwise answer the initial
      content without touching the disk. */
  function LoadBufferIfExists(app: App, env: Env, name: string): (r: Reply<Loaded>)
    ensures name !in app.buffers ==> r == Reply(app, Err(NoSuchBuffer))
    ensures name in app.buffers && ReadsFromDisk(app.files, env, app.buffers[name].filePath) ==>
              && r.result == Ok(Loaded(app.buffers[name].name, Some(app.files[app.buffers[name].filePath].content)))
              && r.app == app.(buffers := app.buffers[name := SetupWatcher(app.buffers[name], app.files)])
    ensures name in app.buffers && !ReadsFromDisk(app.files, env, app.buffers[name].filePath) ==>
              r == Reply(app, Ok(Loaded(name, Some(InitialContent(env)))))
    ensures r.app.leaked == app.leaked && r.app.files == app.files && r.app.log == app.log
    ensures Valid(app) ==> Valid(r.app)
  {
    if name !in app.buffers then Reply(app, Err(NoSuchBuffer))
    else
      var b := app.buffers[name];
      if ReadsFromDisk(app.files, env, b.filePath) then
        var out := Load(b, app.files);
        Reply(app.(buffers := app.buffers[name := out.buffer]), out.result)
      else
        Reply(app, Ok(Loaded(name, Some(InitialContent(env)))))
  }

  /** Closes the buffer registered under `name`, if any, keeping its entry. */
  function CloseEntry(app: App, name: string): (r: App)
    ensures r.(buffers := app.buffers) == app
    ensures r.buffers.Keys == app.buffers.Keys
    ensures name in app.buffers ==> r.buffers[name] == Close(app.buffers[name])
    ensures forall n :: n in app.buffers && n != name ==> r.buffers[n] == app.buffers[n]
    ensures Valid(app) ==> Valid(r)
    ensures Valid(app) && name in r.buffers ==> !r.buffers[name].Watched()
  {
    if name in app.buffers then app.(buffers := app.buffers[name := Close(app.buffers[name])]) else app
  }

  /** Close-before-replace: the displaced buffer is closed first, so
      replacing it never leaks its watcher. */
  function ReplaceEntry(app: App, name: string, b: Buffer): (r: App)
    ensures r.buffers == app.buffers[name := b]
    ensures r.(buffers := app.buffers, leaked := app.leaked) == app
    ensures Valid(app) ==> r.leaked == app.leaked
    ensures Valid(app) && b.name == name && b.WellFormed() ==> Valid(r)
  {
    Install(CloseEntry(app, name), name, b)
  }

  /** The placeholder content for a buffer with nothing on disk. */
  function InitialContent(env: Env): string {
    if env.isDev then env.initialDevContent else env.initialContent
  }

  /** True iff `loadBufferIfExists` reads the file at `path` rather than
      answering the placeholder. */
  predicate ReadsFromDisk(fs: Store, env: Env, path: string) {
    IsFile(fs, path) && !(env.eraseInitialContent && env.isDev)
  }

  /** The content `loadBufferIfExists` answers for a buffer at `path`. */
  function ShownContent(fs: Store, env: Env, path: string): (r: string)
    ensures ReadsFromDisk(fs, env, path) ==> r == fs[path].content
    ensures !ReadsFromDisk(fs, env, path) ==> r == InitialContent(env)
  {
    if ReadsFromDisk(fs, env, path) then fs[path].content else InitialContent(env)
  }

  /** What `loadBufferIfExists` answers for a registered name is the file's
      content when it reads the disk, and the placeholder otherwise. */
  lemma LoadBufferIfExistsShows(app: App, env: Env, name: string)
    requires name in app.buffers
    ensures var r := LoadBufferIfExists(app, env, name);
            && r.result.Ok?
            && r.result.value.content == Some(ShownContent(app.files, env, app.buffers[name].filePath))
            && (ReadsFromDisk(app.files, env, app.buffers[name].filePath) ==>
                  r.result.value.content == Read(app.files, app.buffers[name].filePath).value)
            && (!ReadsFromDisk(app.files, env, app.buffers[name].filePath) ==>
                  r.result.value.content == Some(InitialContent(env)))
  {
  }

  /** `loadBufferIfExists` changes at most the watcher of the named entry. */
  lemma LoadBufferIfExistsFrame(app: App, env: Env, name: string)
    ensures var r := LoadBufferIfExists(app, env, name);
            && r.app.(buffers := app.buffers) == app
            && r.app.buffers.Keys == app.buffers.Keys
            && forall n :: n in app.buffers && n != name ==> r.app.buffers[n] == app.buffers[n]
  {
  }

  /** The tail of `multibuffer:new`: answer `loadBufferIfExists` for `name`
      and push the content through the change channel. */
  function Announce(app: App, env: Env, name: string): (r: Reply<()>)
    ensures name !in app.buffers ==> r == Reply(app, Err(NoSuchBuffer))
    ensures name in app.buffers ==>
              && r.result.Ok?
              && r.app.buffers == LoadBufferIfExists(app, env, name).app.buffers
              && r.app.log == app.log + [Notification(name, Some(ShownContent(app.files, env, app.buffers[name].filePath)))]
    ensures r.app.(buffers := app.buffers, log := app.log) == app
    ensures Valid(app) ==> Valid(r.app)
  {
    var loaded := LoadBufferIfExists(app, env, name);
    match loaded.result
    case Err(e) => Reply(loaded.app, Err(e))
    case Ok(pair) => Reply(loaded.app.(log := loaded.app.log + [Notification(name, pair.content)]), Ok(()))
  }

  /** `multibuffer:new`: close any buffer already registered under `name`,
      replace it with a fresh one, and push its content through the
      change channel instead of returning it. Close-before-replace means no
      watcher is leaked. */
  function MultibufferNew(app: App, env: Env, name: string): (r: Reply<()>)
    ensures r.result.Ok? <==> Paths.GetBufferFilePath(env, name).Ok?
    ensures Valid(app) ==> r.app.leaked == app.leaked && Valid(r.app)
  {
    match LoadBuffer(env, app.files, name)
    case Err(e) => Reply(CloseEntry(app, name), Err(e))
    case Ok(b) => Announce(ReplaceEntry(app, name, b), env, name)
  }

  /** Only the registry and the log change; other names keep their buffers. */
  lemma MultibufferNewFrame(app: App, env: Env, name: string)
    ensures var r := MultibufferNew(app, env, name);
            && r.app.files == app.files
            && r.app.contentSaved == app.contentSaved && r.app.quitRequested == app.quitRequested
            && r.app.buffers.Keys == app.buffers.Keys + (if r.result.Ok? then {name} else {})
            && forall n :: n in app.buffers && n != name ==> r.app.buffers[n] == app.buffers[n]
  {
    match LoadBuffer(env, app.files, name)
    case Err(e) =>
      var closed := CloseEntry(app, name);
      assert MultibufferNew(app, env, name) == Reply(closed, Err(e));
    case Ok(b) =>
      var replaced := ReplaceEntry(app, name, b);
      assert replaced.buffers == app.buffers[name := b];
      LoadBufferIfExistsFrame(replaced, env, name);
  }

  /** On success the fresh buffer is registered and its content (from disk,
      or the placeholder) is pushed as exactly one notification. */
  lemma MultibufferNewNotifies(app: App, env: Env, name: string)
    requires Paths.GetBufferFilePath(env, name).Ok?
    ensures var r := MultibufferNew(app, env, name);
            var path := Paths.GetBufferFilePath(env, name).value;
            && name in r.app.buffers
            && r.app.buffers[name].name == name
            && r.app.buffers[name].filePath == path
            && r.app.buffers[name].lastSaved == None
            && (r.app.buffers[name].Watched() <==> IsFile(app.files, path))
            && r.app.log == app.log + [Notification(name, Some(ShownContent(app.files, env, path)))]
  {
    var b := LoadBuffer(env, app.files, name).value;
    var replaced := ReplaceEntry(app, name, b);
    assert replaced.buffers[name] == b && replaced.files == app.files;
  }

  /** When the path cannot be resolved the old buffer stays, closed, and
      nothing is pushed. */
  lemma MultibufferNewFailure(app: App, env: Env, name: string)
    requires Paths.GetBufferFilePath(env, name).Err?
    ensures var r := MultibufferNew(app, env, name);
            && r.app.log == app.log && r.app.leaked == app.leaked
            && (name in app.buffers ==> r.app.buffers[name] == Close(app.buffers[name]))
  {
  }

  /** Registering the same name twice leaves one buffer under it, with at
      most one watcher, and no watcher behind it. */
  lemma RegisterTwiceKeepsOneWatcher(app: App, env: Env, name: string)
    requires Valid(app)
    requires Paths.GetBufferFilePath(env, name).Ok?
    ensures var first := MultibufferNew(app, env, name);
            var second := MultibufferNew(first.app, env, name);
            && second.app.leaked == app.leaked
            && second.app.buffers[name].openWatchers <= 1
            && (second.app.buffers[name].Watched()
                <==> IsFile(app.files, Paths.GetBufferFilePath(env, name).value))
  {
    var first := MultibufferNew(app, env, name);
    MultibufferNewFrame(app, env, name);
    MultibufferNewNotifies(first.app, env, name);
  }

  /** `buffer-content:save`: the named buffer's save. */
  function SaveBuffer(app: App, name: string, content: string, fault: Option<string>): (r: Reply<()>)
    ensures name !in app.buffers ==> r == Reply(app, Err(NoSuchBuffer))
    ensures name in app.buffers ==>
              && r.app.buffers == app.buffers[name := app.buffers[name].(lastSaved := Some(content))]
              && (r.result.Ok? <==> Write(app.files, app.buffers[name].filePath, content, fault).Ok?)
              && (r.result.Ok? ==> Read(r.app.files, app.buffers[name].filePath) == Ok(Some(content)))
              && (r.result.Ok? ==> r.app.files == app.files[app.buffers[name].filePath := File(content)])
              && (r.result.Err? ==> r.result.error == Write(app.files, app.buffers[name].filePath, content, fault).error)
    ensures r.result.Err? ==> r.app.files == app.files
    ensures r.app.log == app.log && r.app.leaked == app.leaked
    ensures r.app.contentSaved == app.contentSaved && r.app.quitRequested == app.quitRequested
    ensures Valid(app) ==> Valid(r.app)
  {
    if name !in app.buffers then Reply(app, Err(NoSuchBuffer))
    else
      var out := Save(app.buffers[name], app.files, content, fault);
      Reply(app.(buffers := app.buffers[name := out.buffer], files := out.files), out.result)
  }

  /** `buffer-content:saveAndQuit`: save, then mark the content saved and
      ask to quit; a failed save raises before either happens. */
  function SaveAndQuit(app: App, name: string, content: string, fault: Option<string>): (r: Reply<()>)
    ensures r.app.contentSaved <==> app.contentSaved || r.result.Ok?
    ensures r.app.quitRequested <==> app.quitRequested || r.result.Ok?
    ensures r.result.Ok? <==> name in app.buffers && Write(app.files, app.buffers[name].filePath, content, fault).Ok?
    ensures r.result.Ok? ==> Read(r.app.files, app.buffers[name].filePath) == Ok(Some(content))
    ensures r.app.buffers == SaveBuffer(app, name, content, fault).app.buffers
    ensures r.result == SaveBuffer(app, name, content, fault).result
    ensures r.app.(contentSaved := app.contentSaved, quitRequested := app.quitRequested)
            == SaveBuffer(app, name, content, fault).app
    ensures r.result.Ok? ==> r.app.files == app.files[app.buffers[name].filePath := File(content)]
    ensures r.result.Err? ==> r.app.files == app.files
    ensures r.app.log == app.log && r.app.leaked == app.leaked
    ensures Valid(app) ==> Valid(r.app)
  {
    var saved := SaveBuffer(app, name, content, fault);
    if saved.result.Err? then saved
    else Reply(saved.app.(contentSaved := true, quitRequested := true), Ok(()))
  }

  /** A raw directory event delivered to the watcher of the buffer
      registered under `name`; a notification is appended to the log. */
  function HandleWatchEvent(app: App, name: string, ev: WatchEvent): (r: App)
    ensures r.(log := app.log) == app
    ensures name !in app.buffers ==> r == app
    ensures name in app.buffers ==>
              match OnWatchEvent(app.buffers[name], app.files, ev)
              case Notify(c) => r.log == app.log + [Notification(app.buffers[name].name, c)]
              case _ => r.log == app.log
  {
    if name !in app.buffers then app
    else match OnWatchEvent(app.buffers[name], app.files, ev)
      case Notify(c) => app.(log := app.log + [Notification(app.buffers[name].name, c)])
      case _ => app
  }

  /** An edit made outside the application. */
  function ExternalWrite(app: App, path: string, content: string): (r: App)
    ensures r.files == app.files[path := File(content)]
    ensures r.(files := app.files) == app
  {
    app.(files := app.files[path := File(content)])
  }

  /** Round trip through the handlers: what was saved is what is loaded. */
  lemma SaveThenLoadBufferIfExists(app: App, env: Env, name: string, content: string)
    requires Valid(app)
    requires !(env.eraseInitialContent && env.isDev)
    requires SaveBuffer(app, name, content, None).result.Ok?
    ensures LoadBufferIfExists(SaveBuffer(app, name, content, None).app, env, name).result
            == Ok(Loaded(name, Some(content)))
  {
    var saved := SaveBuffer(app, name, content, None);
    var path := app.buffers[name].filePath;
    assert saved.app.buffers[name].filePath == path;
    assert IsFile(saved.app.files, path);
  }

  /** The application's own save triggers no notification. */
  lemma SaveNotEchoed(app: App, name: string, content: string, ev: WatchEvent)
    requires SaveBuffer(app, name, content, None).result.Ok?
    ensures var saved := SaveBuffer(app, name, content, None);
            HandleWatchEvent(saved.app, name, ev).log == app.log
  {
    var saved := SaveBuffer(app, name, content, None);
    SaveEchoSuppressed(app.buffers[name], app.files, content, ev);
    assert saved.app.buffers[name] == Save(app.buffers[name], app.files, content, None).buffer;
  }

  /** An external rewrite after a save is reported once, with the new text. */
  lemma ExternalRewriteNotifiedOnce(app: App, name: string, saved: string, external: string, ev: WatchEvent)
    requires Valid(app)
    requires name in app.buffers && app.buffers[name].Watched()
    requires ConcernsBuffer(app.buffers[name], ev)
    requires external != saved
    requires SaveBuffer(app, name, saved, None).result.Ok?
    ensures var s := SaveBuffer(app, name, saved, None).app;
            var e := ExternalWrite(s, app.buffers[name].filePath, external);
            HandleWatchEvent(e, name, ev).log == app.log + [Notification(name, Some(external))]
  {
    var b := app.buffers[name];
    var s := SaveBuffer(app, name, saved, None).app;
    var e := ExternalWrite(s, b.filePath, external);
    assert e.buffers[name] == b.(lastSaved := Some(saved));
    assert e.files[b.filePath] == File(external);
    assert OnWatchEvent(e.buffers[name], e.files, ev) == Notify(Some(external));
  }

  /** Two copies of a name in the configuration, for a file that exists:
      the second pass of the `loadBuffers` loop replaces the buffer the first
      pass installed without closing it, so its watcher leaks. */
  lemma DuplicateConfigurationLeaks(app: App, env: Env, name: string)
    requires Valid(app)
    requires Paths.GetBufferFilePath(env, name).Ok?
    requires IsFile(app.files, Paths.GetBufferFilePath(env, name).value)
    ensures var b := LoadBuffer(env, app.files, name).value;
            var first := LoadStep(env, app.files, app.(buffers := CloseAll(app.buffers)), name);
            && first.Ok?
            && var second := LoadStep(env, app.files, first.value, name);
            && second.Ok?
            && b.Watched() && second.value.leaked == app.leaked + [b]
  {
    var b := LoadBuffer(env, app.files, name).value;
    var first := LoadStep(env, app.files, app.(buffers := CloseAll(app.buffers)), name).value;
    assert first.leaked == app.leaked;
    assert first.buffers[name] == b;
  }

  /** What reading the file of the buffer registered under `n` gives. */
  function ReadEntry(app: App, n: string): Result<Option<string>, string>
    requires n in app.buffers
  {
    Read(app.files, app.buffers[n].filePath)
  }

  /** The names outside `todo` are loaded into `buffers`; the rest are untouched. */
  ghost predicate LoadAllBuffers(app: App, todo: set<string>, buffers: map<string, Buffer>) {
    && todo <= app.buffers.Keys
    && buffers.Keys == app.buffers.Keys
    && (forall n :: n in todo ==> buffers[n] == app.buffers[n])
    && (forall n :: n in app.buffers && n !in todo ==> buffers[n] == Load(app.buffers[n], app.files).buffer)
  }

  /** The contents read outside `todo` are collected, and `failure` is set
      exactly when one of those reads failed. */
  ghost predicate LoadAllContents(app: App, todo: set<string>,
                                  contents: map<string, Option<string>>, failure: Option<string>) {
    && contents.Keys <= app.buffers.Keys - todo
    && (forall n :: n in contents ==> ReadEntry(app, n) == Ok(contents[n]))
    && (forall n :: n in app.buffers && n !in todo && ReadEntry(app, n).Ok? ==> n in contents)
    && (failure.None? <==> forall n :: n in app.buffers && n !in todo ==> ReadEntry(app, n).Ok?)
    && (failure.Some? ==> exists n :: n in app.buffers && ReadEntry(app, n) == Err(failure.value))
  }

  /** How far `buffer-content:all` has got. */
  ghost predicate LoadAllProgress(app: App, todo: set<string>, buffers: map<string, Buffer>,
                                  contents: map<string, Option<string>>, failure: Option<string>) {
    LoadAllBuffers(app, todo, buffers) && LoadAllContents(app, todo, contents, failure)
  }

  lemma LoadAllBuffersStep(app: App, todo: set<string>, buffers: map<string, Buffer>, n: string)
    requires LoadAllBuffers(app, todo, buffers)
    requires n in todo
    ensures LoadAllBuffers(app, todo - {n}, buffers[n := Load(buffers[n], app.files).buffer])
  {
  }

  lemma LoadAllContentsStep(app: App, todo: set<string>,
                            contents: map<string, Option<string>>, failure: Option<string>, n: string)
    requires todo <= app.buffers.Keys
    requires LoadAllContents(app, todo, contents, failure)
    requires n in todo
    ensures var rd := ReadEntry(app, n);
            LoadAllContents(app, todo - {n},
                            if rd.Ok? then contents[n := rd.value] else contents,
                            if rd.Ok? then failure else Some(rd.error))
  {
  }

  lemma LoadAllStep(app: App, todo: set<string>, buffers: map<string, Buffer>,
                    contents: map<string, Option<string>>, failure: Option<string>, n: string)
    requires LoadAllProgress(app, todo, buffers, contents, failure)
    requires n in todo
    ensures var out := Load(buffers[n], app.files);
            LoadAllProgress(app, todo - {n}, buffers[n := out.buffer],
                            if out.result.Ok? then contents[n := out.result.value.content] else contents,
                            if out.result.Ok? then failure else Some(out.result.error))
  {
    var out := Load(buffers[n], app.files);
    assert buffers[n] == app.buffers[n];
    LoadAllBuffersStep(app, todo, buffers, n);
    LoadAllContentsStep(app, todo, contents, failure, n);
    if out.result.Ok? {
      assert ReadEntry(app, n) == Ok(out.result.value.content);
    } else {
      assert ReadEntry(app, n) == Err(out.result.error);
    }
  }

  /** Once `todo` is empty, what was collected is the handler's result. */
  lemma LoadAllFinish(app: App, buffers: map<string, Buffer>,
                      contents: map<string, Option<string>>, failure: Option<string>)
    requires LoadAllProgress(app, {}, buffers, contents, failure)
    ensures buffers.Keys == app.buffers.Keys
    ensures forall n :: n in app.buffers ==> buffers[n] == Load(app.buffers[n], app.files).buffer
    ensures failure.None? <==> forall n :: n in app.buffers ==> ReadEntry(app, n).Ok?
    ensures failure.None? ==> contents.Keys == app.buffers.Keys
    ensures failure.None? ==> forall n :: n in app.buffers ==> ReadEntry(app, n) == Ok(contents[n])
    ensures failure.Some? ==> exists n :: n in app.buffers && ReadEntry(app, n) == Err(failure.value)
    ensures Valid(app) ==> Valid(app.(buffers := buffers))
  {
  }

  /** `buffer-content:all`: every registered buffer is loaded (each load
      arms that buffer's watcher when its read succeeds); the reply maps
      each name to its content, or is the error of a failed read. */
  method LoadAll(app: App) returns (app': App, result: Result<map<string, Option<string>>, string>)
    ensures app'.(buffers := app.buffers) == app
    ensures app'.buffers.Keys == app.buffers.Keys
    ensures forall n :: n in app.buffers ==> app'.buffers[n] == Load(app.buffers[n], app.files).buffer
    ensures result.Ok? <==> forall n :: n in app.buffers ==> ReadEntry(app, n).Ok?
    ensures result.Ok? ==> result.value.Keys == app.buffers.Keys
    ensures result.Ok? ==> forall n :: n in app.buffers ==> ReadEntry(app, n) == Ok(result.value[n])
    ensures result.Err? ==> exists n :: n in app.buffers && ReadEntry(app, n) == Err(result.error)
    ensures Valid(app) ==> Valid(app')
  {
    var todo := app.buffers.Keys;
    var buffers := app.buffers;
    var contents: map<string, Option<string>> := map[];
    var failure: Option<string> := None;
    while todo != {}
      invariant LoadAllProgress(app, todo, buffers, contents, failure)
      decreases todo
    {
      var n :| n in todo;
      LoadAllStep(app, todo, buffers, contents, failure, n);
      var out := Load(buffers[n], app.files);
      buffers := buffers[n := out.buffer];
      todo := todo - {n};
      match out.result {
        case Ok(pair) =>
          contents := contents[n := pair.content];
        case Err(e) =>
          failure := Some(e);
      }
    }
    LoadAllFinish(app, buffers, contents, failure);
    app' := app.(buffers := buffers);
    if failure.Some? {
      result := Err(failure.value);
    } else {
      result := Ok(contents);
    }
  }
}

=== FILE: wrappers.dfy ===
/** Failure-carrying datatypes shared by the whole model. */
module Wrappers {

  /** A value that may be missing: JavaScript's `null`/`undefined` for a string. */
  datatype Option<+T> = None | Some(value: T)

  /** The outcome of an operation that can throw; `Err` carries the error code. */
  datatype Result<+T, +E> = Ok(value: T) | Err(error: E)
}
